=== FILE: README.md ===
# Snake and fries-catcher game logic in Dafny

This project models the game logic of two small arcade games, with all drawing removed.

- **Snake** (`snake.py`). The snake moves on a 30 x 30 grid of cells. Its body is a sequence of cells with the head first. Arrow keys buffer a new heading. The buffered heading is refused if it would reverse the heading already committed. Each timer tick commits the buffered heading and moves the head one cell. The move fails on a wall or on any body cell, and then the game is over. When the head lands on the food, the snake grows by one cell, scores 10 points and new food is placed on a random free cell. Otherwise the tail cell is dropped. The space bar pauses and resumes. R restarts.
- **Fries catcher** (`frites_game.py`). A packet at the bottom of the window follows the mouse. It moves at most 15 pixels per frame toward a target that is clamped to stay on screen. Fries fall from the top. A fry that enters the packet's catch zone scores 10 plus 5 per catch already in the current combo, and the combo grows by one. A fry that falls past the bottom costs a life and resets the combo. The game ends when no lives are left. A new fry appears every `spawnRate` frames. Every 500th frame lowers `spawnRate` by 2 until it reaches 20.

Each game is one immutable record. Every input handler and the timer callback is a pure function from record to record. For each game, an invariant is proved to hold after every input.

| file | module | contents |
|---|---|---|
| `common.dfy` | `Common` | `Option`, and integer `Abs`, `Min` and `Max` |
| `snake_grid.dfy` | `SnakeGrid` | grid constants, cells, headings, the well-formed body, and counting free cells |
| `snake_game.dfy` | `SnakeGame` | the snake record, `spawn_food`, `move_snake`, `game_loop`, `init_game`, `restart_game`, `toggle_pause`, `change_direction`, the invariant and runs |
| `frites_paddle.dfy` | `FritesPaddle` | `PaquetFrites`: `move_to`, `update` and `get_catch_rect` |
| `frites_game.dfy` | `FritesGame` | the collision test, fry outcomes, score, lives and combo, one frame of `game_loop`, mouse, click and restart handlers, the spawn-rate ramp, and the invariant |

How randomness and physics enter the model:

- **Snake food.** `spawn_food` is rejection sampling. It draws a random cell and repeats until the cell is not on the snake. The model receives the random draws as a sequence of cells, each inside the grid. The accepted cell is the first draw that is not on the snake. A call that may spawn food requires the sequence to contain such a draw. `init_game` spawns food and then runs one tick, and that tick may spawn again. Both spawns read from the same sequence of draws.
- **Fry motion.** Each fry moves with floating-point physics. A frame receives the fries' positions after their own update, as integers that give the same comparisons as the real positions. Every bound that `check_collision` and `is_off_screen` compare a coordinate with is an integer, so the real coordinates rounded up serve: for a real v and an integer bound b, v >= b, v <= b and v > b each hold exactly when they hold for v rounded up. From those positions the model decides, fry by fry and in list order, whether each fry was caught, missed, or is still falling. The decision uses the comparisons of `check_collision` and `is_off_screen`.

Behaviour of the code that is easy to miss, and that the model keeps:

- `init_game` runs a first tick straight away (snake.py:162). So a newly started snake has already stepped one cell right, to (16, 15). Its length is 2 if the food happened to be spawned on that cell.
- The spawn rate of the catcher is a module global that `restart_game` does not reset. A restarted game keeps the difficulty the previous game reached. The model keeps the rate as a field of the game record, and `RestartGame` leaves that field unchanged.
- When a miss takes the last life, `game_loop` returns at once. Fries later in the list are not processed in that frame. The fries already caught or missed in that frame are not removed from the list. The model keeps exactly that list.
- In a frame that does not end the game, the caught and missed fries are removed with `list.remove`. `Frite` defines no equality of its own, so each call removes that very fry object. The kept list is therefore exactly the fries still falling, in their original order.

## Model

| member | source | states |
|---|---|---|
| `SnakeGrid.NegatedDeltaIsOpposite` | snake.py:203-205 | negating the requested step vector gives the committed vector exactly when the request is the opposite heading; no heading is its own opposite |
| `SnakeGrid.StepIsAdjacent` | snake.py:219-220 | one step along any heading reaches an orthogonally adjacent cell that differs from the start cell |
| `SnakeGrid.PrependKeepsShape` | snake.py:228-231 | a new head that is in bounds, not on the body and adjacent to the old head keeps the body well formed: non-empty, in bounds, no repeated cell, consecutive cells adjacent |
| `SnakeGrid.DropLastKeepsShape` | snake.py:238-239 | popping the tail of a well-formed body of two or more cells keeps it well formed |
| `SnakeGrid.FreeCellExistsIff` | snake.py:209-214 | for an in-bounds body without repeats, a free grid cell exists if and only if the body has fewer than 30 x 30 cells |
| `SnakeGame.FreeIndex` | snake.py:209-214 | the draw the rejection loop accepts is free, and every draw before it is a body cell |
| `SnakeGame.SpawnFood` | snake.py:207-214 | the new food is one of the draws, lies in the grid and is not a body cell; the draws left over are fewer and still in the grid |
| `SnakeGame.MoveSnake` | snake.py:216-241 | the buffered heading is committed even when the move fails; the move succeeds exactly when the next head is in bounds and not any body cell, including the tail; a failed move leaves body, score and food alone; eating adds exactly 10 points and exactly one cell and places food off the body; otherwise score and length stay the same and the old tail is dropped |
| `SnakeGame.GameLoop` | snake.py:352-363 | a finished or paused game is left unchanged; otherwise the game becomes over exactly when the move crashes, and a crash keeps body and score |
| `SnakeGame.InitGame` | snake.py:150-162 | a new game is running, heading right, with the head at (16, 15) after the first tick, a body of one cell or of two cells if the first tick ate, a score of 10 per extra cell, and food on a free grid cell |
| `SnakeGame.RestartGame` | snake.py:164-168 | whatever the previous state, restart yields what init_game yields: a running game that satisfies the invariant, heading right with the head at (16, 15), a body of one cell or of two cells if the first tick ate, a score of 10 per extra cell, and food on a free grid cell |
| `SnakeGame.RestartForgetsState` | snake.py:164-168 | two games restarted with the same random draws are the same game, whatever state each was in |
| `SnakeGame.TogglePause` | snake.py:170-178 | pausing only affects a started game that is not over; resuming runs one tick at once; a game that is not started or is over is unchanged |
| `SnakeGame.PauseResumeIsOneTick` | snake.py:170-178 | pausing a running game and then resuming it gives the same state as one tick |
| `SnakeGame.ChangeDirection` | snake.py:197-205 | before the start, an arrow key only starts the game and its heading is ignored; afterwards a request is buffered if and only if it is not the opposite of the committed heading, otherwise nothing changes |
| `SnakeGame.MovePreservesInv` | snake.py:216-241 | a move keeps the body well formed, the food in bounds and off the body, the score equal to 10 per extra cell, and the buffered heading from reversing the committed one |
| `SnakeGame.TickNeverReverses` | snake.py:203-218 | the heading a tick commits is never the reverse of the heading committed before that tick |
| `SnakeGame.ArrowsNeverReverse` | snake.py:197-205 | any burst of arrow keys between two ticks leaves the committed heading alone, and the buffered heading never reverses it |
| `SnakeGame.Step` | snake.py:91-98 | an arrow in a started game changes only the buffered heading, and before the start it starts a running game heading right; the space bar leaves a game that is not started or is over unchanged; the timer changes only a running game; R always yields a running game heading right with at most two cells |
| `SnakeGame.StepPreservesInv` | snake.py:150-241 | every key and every timer tick keeps the invariant |
| `SnakeGame.RunPreservesInv` | snake.py:352-363 | every run of inputs from a state that satisfies the invariant keeps it |
| `SnakeGame.FoodHasRoom` | snake.py:207-214 | in any reachable started game, a free cell for food exists exactly while the snake is shorter than the grid |
| `SnakeGame.EatScenario` | snake.py:231-237 | heading right at (10, 10) with food at (11, 10): the head moves onto the food, the score becomes 10, the length becomes 2, and the new food is elsewhere |
| `SnakeGame.NoReversalScenario` | snake.py:203-205 | while heading right, a left request is refused; up followed by left within one tick leaves up buffered |
| `FritesPaddle.MoveTo` | frites_game.py:50-51 | the target is the pointer's x clamped to [40, 760]; the position does not move |
| `FritesPaddle.MoveToIsNearestClamp` | frites_game.py:50-51 | clamping is idempotent, and the clamped target is the reachable target nearest to the pointer |
| `FritesPaddle.Update` | frites_game.py:53-58 | within 2 pixels of the target nothing moves; otherwise the packet moves toward the target by at most 15, never overshoots, reaches the target when it is within 15, and strictly closes the distance |
| `FritesPaddle.ChaseSettles` | frites_game.py:53-58 | with a fixed target, the packet is within 2 pixels of it after one frame per 15 pixels of distance beyond the dead band |
| `FritesPaddle.ChaseStaysOnScreen` | frites_game.py:50-58 | a packet on screen chasing an on-screen target stays within [40, 760] |
| `FritesPaddle.CatchRect` | frites_game.py:60-67 | the catch rectangle is 80 wide, centred on the packet, and spans the 20 pixels from the packet's top edge |
| `FritesGame.IsOffScreen` | frites_game.py:37-38 | a fry is off screen exactly when it is below the bottom edge of the window, and then no packet inside the window catches it |
| `FritesGame.CheckCollision` | frites_game.py:339-346 | a fry is caught if and only if it is within 40 pixels of the packet's centre horizontally and between the packet's top edge and its centre line vertically |
| `FritesGame.Classify` | frites_game.py:428-438 | a fry counts as caught exactly when it is in the catch zone, and as missed exactly when it is off screen and not caught |
| `FritesGame.CaughtNeverOffScreen` | frites_game.py:428-438 | with the packet inside the window, no fry is both caught and off screen, so every off-screen fry is a miss |
| `FritesGame.Apply` | frites_game.py:430-441 | a catch adds exactly 10 + 5 times the old combo, raises the combo by one and keeps the best combo at least the combo; a miss costs exactly one life and resets the combo |
| `FritesGame.Settle` | frites_game.py:424-447 | fries are processed in list order; the loop stops at the first miss that leaves no lives, and the stop index is that miss; without a stop, lives stay positive |
| `FritesGame.SettleMatchesFold` | frites_game.py:424-447 | the loop's counters equal the plain in-order fold of every outcome it reached: all of them, or all up to and including the fatal miss |
| `FritesGame.SettleKeepsTally` | frites_game.py:430-447 | lives stay in [0, 3] and the frame ends the game exactly when they reach 0; the combo stays between 0 and the best combo; score and best combo never drop |
| `FritesGame.CatchStreak` | frites_game.py:430-433 | n catches in a row from combo c score 10n + 5(cn + n(n-1)/2), raise the combo by n and the best combo to at least c + n |
| `FritesGame.FallingFromSorted` | frites_game.py:424-451 | the index list of still-falling fries holds only indices whose outcome is falling, in strictly increasing order, so none twice |
| `FritesGame.FallingFromComplete` | frites_game.py:424-451 | the index list of still-falling fries misses no index whose outcome is falling, and is as long as the number of falling outcomes |
| `FritesGame.Survivors` | frites_game.py:449-451 | the k-th fry kept after a frame is the fry at the k-th still-falling index: exactly the falling fries are kept, each once, in their original order, and every caught or missed fry is removed |
| `FritesGame.SpawnedFries` | frites_game.py:409-413 | the old fries stay in front; a new fry is added at the back, at the spawn height and the given x, exactly on frames whose number is a multiple of the spawn rate |
| `FritesGame.NextRate` | frites_game.py:416-417 | the ramp either keeps the rate or lowers it by exactly 2, and it lowers it exactly on frames whose number is a multiple of 500 while the rate is above 20 |
| `FritesGame.Frame` | frites_game.py:405-460 | a frame only runs in a started game that is not over; it advances the frame count and the packet, and sets the spawn rate by the ramp rule for the new frame number; a frame that does not end the game applies every fry's outcome and keeps exactly the fries still falling, in order; a frame that ends it applies outcomes up to a miss and keeps the updated prefix of the fry list |
| `FritesGame.OnMouseMove` | frites_game.py:244-246 | the pointer sets the clamped target only in a started game that is not over; the packet's position never jumps |
| `FritesGame.OnClick` | frites_game.py:218-225 | the first click starts the game and runs one frame; clicks after that change nothing |
| `FritesGame.RestartGame` | frites_game.py:227-242 | from any state, restart gives the fresh waiting record: score, lives, combo, best combo, frame count and fries reset and the packet recentred, while the spawn rate and the packet's height are kept |
| `FritesGame.RampStaysInRange` | frites_game.py:416-417 | the ramp keeps the spawn rate even, never raises it, and never takes it below 20 |
| `FritesGame.FramePreservesInv` | frites_game.py:405-451 | a frame keeps lives in [0, 3] with game over exactly at 0, the combo at most the best combo, the spawn rate in [20, 40], and the packet on screen |
| `FritesGame.RateSchedule` | frites_game.py:409-417 | starting from 40, the rate after frame f is max(20, 40 - 2 * (f div 500)) |
| `FritesGame.IdleTimerRun` | frites_game.py:405-407 | timer frames leave a game that is not started or is over unchanged |
| `FritesGame.TimerRunFollowsRamp` | frites_game.py:405-417 | n timer frames that leave the game running add n to the frame count and change the spawn rate exactly as n applications of the ramp |
| `FritesGame.StepKeepsSchedule` | frites_game.py:405-417 | a mouse move, a click or a timer frame keeps the spawn rate at max(20, 40 - 2 * (frame div 500)) for the frame count it leaves, including frames of a game that is over and the frame the first click runs |
| `FritesGame.RampFollowsSchedule` | frites_game.py:405-417 | the constructor's record is on the schedule, and any run of inputs without R from a record on the schedule ends on it, whether the game is still running or over; R is the one input that can leave it, since it zeroes the frame count but keeps the rate |
| `FritesGame.Step` | frites_game.py:140-144 | a mouse move changes only the packet's target; a click changes only a game not yet started; the timer changes only a running game; R brings back a waiting game with score 0, 3 lives, no fries and the old spawn rate; no input moves the packet off its row |
| `FritesGame.StepPreservesInv` | frites_game.py:218-246 | every mouse move, click, restart and timer frame keeps the invariant |
| `FritesGame.StepIsMonotone` | frites_game.py:405-447 | between restarts, the best combo and the score never drop and the spawn rate never rises |
| `FritesGame.RunPreservesInv` | frites_game.py:128-137 | the constructor's record satisfies the invariant, and every run of inputs keeps it |
| `FritesGame.RunIsMonotone` | frites_game.py:430-441 | over any run without a restart, the best combo and the score never drop and the spawn rate never rises |

## Left out

- Drawing: the canvas, labels, fonts, colours, grid, overlays, the combo pop-up and its one-second timer. None of it affects the game state.
- Timer rescheduling with `root.after`. One call of `game_loop` is one function application. Two callback chains can run at once: for example, restarting the snake game while it runs starts a second chain, and the snake then moves twice as often. This is not modelled.
- Fullscreen toggling (`toggle_fullscreen` and `exit_fullscreen`) in both games.
- Floating-point fry physics: the random speed, the sine wobble, `Frite.update` and `is_off_screen` on real coordinates. A frame receives the updated positions as integers that give the same comparisons instead.
- The random number generator itself. Food draws are any cells in [0, 29] x [0, 29]. A spawned fry's x is any value in [50, 750].
- `spawn_food` never stops once the snake covers all 900 cells. Every call that spawns food therefore requires a free draw. `FoodHasRoom` shows that a free cell exists exactly while the snake is shorter than the grid.
- The score labels, which only display `score` and `lives`.

=== FILE: common.dfy ===
/** Small helpers shared by both games: an optional value and integer
    absolute value, minimum and maximum (Python's abs, min and max on ints). */
module Common {

  datatype Option<+T> = None | Some(value: T)

  function Abs(x: int): (r: nat)
    ensures r == x || r == -x
  {
    if x < 0 then -x else x
  }

  function Min(a: int, b: int): (r: int)
    ensures r <= a && r <= b
    ensures r == a || r == b
  {
    if a <= b then a else b
  }

  function Max(a: int, b: int): (r: int)
    ensures r >= a && r >= b
    ensures r == a || r == b
  {
    if a >= b then a else b
  }
}

=== FILE: frites_game.dfy ===
/** The catcher game's bookkeeping (FritesGame, frites_game.py:70-460),
    without any drawing.

    Fries fall with a random, floating-point motion; that motion stays
    outside the model. A frame is given the fries' positions after their
    own update as integers that give the same comparisons as the real
    positions: every bound check_collision and is_off_screen compare with
    is an integer, so the real coordinates rounded up serve. From them the
    model decides, fry by fry and in list order, whether each was caught,
    missed or is still falling, then keeps score, combo and lives as
    game_loop does. */
module FritesGame {
  import opened Common
  import opened FritesPaddle

  /** Frames between spawns at start-up (frites_game.py:9). The game keeps
      it in a module global that the difficulty ramp lowers and that
      restart_game never resets; here it is a field of the game record. */
  const InitialSpawnRate: int := 40

  /** The ramp: on every 500th frame, while the rate is above 20, it drops
      by 2 (frites_game.py:416-417). */
  const RampEvery: int := 500
  const RampFloor: int := 20
  const RampStep: int := 2

  const StartLives: int := 3

  /** A catch earns 10 plus 5 per fry already in the combo (frites_game.py:430). */
  const CatchBase: int := 10
  const ComboBonus: int := 5

  /** A new fry appears at x in [50, 750], 50 pixels above the window
      (frites_game.py:248-251). */
  const SpawnMargin: int := 50
  const SpawnY: int := -50

  /** How far below the catch rectangle a fry still counts as caught
      (frites_game.py:344). */
  const CatchSlack: int := 30

  /** A falling fry's position. */
  datatype Frite = Frite(x: int, y: int)

  /** is_off_screen (frites_game.py:37-38): the fry has passed the bottom
      edge of the window, and so lies below the catch zone of any packet
      inside the window. */
  function IsOffScreen(f: Frite): (b: bool)
    ensures b <==> f.y > WindowHeight
    ensures b ==> forall p: Paquet :: p.y <= WindowHeight ==> !CheckCollision(p, f)
  {
    f.y > WindowHeight
  }

  /** check_collision (frites_game.py:339-346): the catch rectangle widened
      downwards by 30 pixels. The zone spans the packet's width and reaches
      from its top edge down to its centre line: the slack exactly covers
      the rest of the upper half. */
  function CheckCollision(p: Paquet, f: Frite): (b: bool)
    ensures b <==> p.x - PaddleWidth / 2 <= f.x <= p.x + PaddleWidth / 2
                   && p.y - PaddleHeight / 2 <= f.y <= p.y
  {
    var r := CatchRect(p);
    r.left <= f.x <= r.right && r.top <= f.y <= r.bottom + CatchSlack
  }

  /** What one fry does in a frame. */
  datatype Outcome = Caught | Missed | Falling

  /** The if / elif of game_loop (frites_game.py:428-438): a catch is checked
      first, so a fry both caught and off screen counts as caught. */
  function Classify(p: Paquet, f: Frite): (o: Outcome)
    ensures o == Caught <==> CheckCollision(p, f)
    ensures o == Missed <==> !CheckCollision(p, f) && IsOffScreen(f)
  {
    if CheckCollision(p, f) then Caught
    else if IsOffScreen(f) then Missed
    else Falling
  }

  /** With the packet inside the window, as it always is, the two tests
      never hold together, so the order of the if / elif never matters. */
  lemma CaughtNeverOffScreen(p: Paquet, f: Frite)
    requires p.y <= WindowHeight
    ensures !(CheckCollision(p, f) && IsOffScreen(f))
    ensures IsOffScreen(f) ==> Classify(p, f) == Missed
  {
  }

  function Outcomes(p: Paquet, fries: seq<Frite>): (r: seq<Outcome>)
    ensures |r| == |fries|
    ensures forall i :: 0 <= i < |fries| ==> r[i] == Classify(p, fries[i])
  {
    seq(|fries|, i requires 0 <= i < |fries| => Classify(p, fries[i]))
  }

  // ---------------------------------------------------------------------
  // Score, lives and combo
  // ---------------------------------------------------------------------

  datatype Tally = Tally(score: int, lives: int, combo: int, maxCombo: int)

  /** One fry's effect on the counters (frites_game.py:430-441). */
  function Apply(t: Tally, o: Outcome): (r: Tally)
    ensures o == Caught ==>
              && r.score - t.score == CatchBase + ComboBonus * t.combo
              && r.combo == t.combo + 1 && r.lives == t.lives
              && r.maxCombo >= r.combo && r.maxCombo >= t.maxCombo
              && (r.maxCombo == t.maxCombo || r.maxCombo == r.combo)
    ensures o == Missed ==>
              && r.lives == t.lives - 1 && r.combo == 0
              && r.score == t.score && r.maxCombo == t.maxCombo
    ensures o == Falling ==> r == t
  {
    match o
    case Caught =>
      var combo := t.combo + 1;
      Tally(t.score + CatchBase + t.combo * ComboBonus, t.lives, combo, Max(t.maxCombo, combo))
    case Missed => t.(lives := t.lives - 1, combo := 0)
    case Falling => t
  }

  /** All outcomes applied in order, with no early stop: the reference the
      frame loop is compared against. */
  function Fold(t: Tally, outs: seq<Outcome>): Tally
    decreases |outs|
  {
    if |outs| == 0 then t else Fold(Apply(t, outs[0]), outs[1..])
  }

  function Count(outs: seq<Outcome>, o: Outcome): nat
    decreases |outs|
  {
    if |outs| == 0 then 0
    else (if outs[0] == o then 1 else 0) + Count(outs[1..], o)
  }

  /** The counters after the fry loop, and the index of the fry whose miss
      ended the game if one did. */
  datatype Settled = Settled(tally: Tally, stop: Option<nat>)

  /** The fry loop of game_loop (frites_game.py:424-447): outcomes applied
      in list order until a miss leaves no lives, where the loop returns. */
  function Settle(t: Tally, outs: seq<Outcome>): (r: Settled)
    decreases |outs|
    ensures r.stop.Some? ==>
              && r.stop.value < |outs| && outs[r.stop.value] == Missed
              && r.tally.lives <= 0
    ensures t.lives > 0 && r.stop.None? ==> r.tally.lives > 0
  {
    if |outs| == 0 then Settled(t, None)
    else
      var t1 := Apply(t, outs[0]);
      if outs[0] == Missed && t1.lives <= 0 then Settled(t1, Some(0))
      else
        var rest := Settle(t1, outs[1..]);
        match rest.stop
        case None => Settled(rest.tally, None)
        case Some(k) => Settled(rest.tally, Some(k + 1))
  }

  /** The loop's counters are those of the plain fold over the outcomes it
      reached: all of them, or those up to and including the fatal miss. */
  lemma {:induction false} SettleMatchesFold(t: Tally, outs: seq<Outcome>)
    ensures var r := Settle(t, outs);
            && (r.stop.Some? ==> r.tally == Fold(t, outs[..r.stop.value + 1]))
            && (r.stop.None? ==> r.tally == Fold(t, outs))
    decreases |outs|
  {
    if |outs| > 0 {
      var t1 := Apply(t, outs[0]);
      if outs[0] == Missed && t1.lives <= 0 {
        assert outs[..1][1..] == [];
      } else {
        SettleMatchesFold(t1, outs[1..]);
        var rest := Settle(t1, outs[1..]);
        if rest.stop.Some? {
          var k := rest.stop.value;
          assert outs[..k + 2][1..] == outs[1..][..k + 1];
        }
      }
    }
  }

  /** The counters the game keeps between frames. */
  predicate TallyOk(t: Tally)
  {
    0 <= t.lives <= StartLives && 0 <= t.combo <= t.maxCombo && t.score >= 0
  }

  /** The fry loop keeps the counters sane: lives fall one by one and the
      loop stops exactly when they reach zero; score and best combo never
      drop; the combo never passes the best combo. */
  lemma {:induction false} SettleKeepsTally(t: Tally, outs: seq<Outcome>)
    requires TallyOk(t) && t.lives > 0
    ensures var r := Settle(t, outs);
            && TallyOk(r.tally) && r.tally.lives <= t.lives
            && (r.stop.Some? <==> r.tally.lives == 0)
            && r.tally.score >= t.score && r.tally.maxCombo >= t.maxCombo
    decreases |outs|
  {
    if |outs| > 0 {
      var t1 := Apply(t, outs[0]);
      if !(outs[0] == Missed && t1.lives <= 0) {
        SettleKeepsTally(t1, outs[1..]);
      }
    }
  }

  /** A run of n catches from combo c scores 10n + 5(cn + n(n-1)/2) (written
      doubled to stay in integers), lifts the combo by n and the best combo
      to at least c + n. */
  lemma {:induction false} CatchStreak(t: Tally, n: nat)
    ensures var r := Fold(t, seq(n, _ => Caught));
            && 2 * (r.score - t.score) == n * (2 * CatchBase + ComboBonus * (2 * t.combo + n - 1))
            && r.combo == t.combo + n && r.lives == t.lives
            && (n > 0 ==> r.maxCombo == Max(t.maxCombo, t.combo + n))
    decreases n
  {
    var streak := seq(n, _ => Caught);
    if n > 0 {
      var t1 := Apply(t, Caught);
      var rest := seq(n - 1, _ => Caught);
      assert streak[1..] == rest;
      CatchStreak(t1, n - 1);
      var r := Fold(t1, rest);
      assert Fold(t, streak) == r;
      StreakStep(n, t.combo, r.score - t1.score);
    }
  }

  /** The arithmetic of one more catch in front of a streak of n - 1. */
  lemma StreakStep(n: int, c: int, d: int)
    requires 2 * d == (n - 1) * (2 * CatchBase + ComboBonus * (2 * (c + 1) + (n - 1) - 1))
    ensures 2 * (d + CatchBase + ComboBonus * c)
            == n * (2 * CatchBase + ComboBonus * (2 * c + n - 1))
  {
    assert CatchBase == 10 && ComboBonus == 5;
    assert (n - 1) * (20 + 5 * (2 * c + n)) == 15 * n + 10 * c * n + 5 * n * n - 20 - 10 * c;
    assert n * (20 + 5 * (2 * c + n - 1)) == 15 * n + 10 * c * n + 5 * n * n;
  }

  // ---------------------------------------------------------------------
  // The game record and one frame
  // ---------------------------------------------------------------------

  datatype Game = Game(
    paddle: Paquet,
    fries: seq<Frite>,
    score: int,
    lives: int,
    combo: int,
    maxCombo: int,
    gameOver: bool,
    started: bool,
    frameCount: int,
    spawnRate: int)

  /** The record waiting for the first click, with the given spawn rate
      (frites_game.py:128-137, 227-237). */
  function Waiting(spawnRate: int): Game
  {
    Game(Start, [], 0, StartLives, 0, 0, false, false, 0, spawnRate)
  }

  /** The record the constructor builds. */
  const Initial: Game := Waiting(InitialSpawnRate)

  function TallyOf(g: Game): Tally
  {
    Tally(g.score, g.lives, g.combo, g.maxCombo)
  }

  /** game_loop does anything at all (frites_game.py:406-407). */
  predicate Running(g: Game)
  {
    g.started && !g.gameOver
  }

  /** The fry list once this frame's spawn, if any, is appended
      (frites_game.py:409-413): the old fries stay in front, and on every
      spawnRate-th frame exactly one new fry is added at the back, at the
      spawn height. */
  function SpawnedFries(g: Game, spawnX: int): (r: seq<Frite>)
    requires g.spawnRate > 0
    ensures |r| == |g.fries| || |r| == |g.fries| + 1
    ensures r[..|g.fries|] == g.fries
    ensures |r| == |g.fries| + 1 <==> (g.frameCount + 1) % g.spawnRate == 0
    ensures |r| > |g.fries| ==> r[|g.fries|] == Frite(spawnX, SpawnY)
  {
    if (g.frameCount + 1) % g.spawnRate == 0 then g.fries + [Frite(spawnX, SpawnY)]
    else g.fries
  }

  /** The ramp applied on a given frame number (frites_game.py:416-417). */
  function NextRate(rate: int, frame: int): (r: int)
    ensures r == rate || r == rate - RampStep
    ensures r < rate <==> frame % RampEvery == 0 && rate > RampFloor
  {
    if frame % RampEvery == 0 && rate > RampFloor then rate - RampStep else rate
  }

  /** The indices from i on whose outcome is Falling, in increasing order. */
  function FallingFrom(outs: seq<Outcome>, i: nat): (idx: seq<nat>)
    requires i <= |outs|
    ensures |idx| <= |outs| - i
    decreases |outs| - i
  {
    if i == |outs| then []
    else (if outs[i] == Falling then [i] else []) + FallingFrom(outs, i + 1)
  }

  /** FallingFrom picks only indices from i on whose outcome is Falling,
      in strictly increasing order, so none twice. */
  lemma {:induction false} FallingFromSorted(outs: seq<Outcome>, i: nat)
    requires i <= |outs|
    ensures forall k :: 0 <= k < |FallingFrom(outs, i)| ==>
              i <= FallingFrom(outs, i)[k] < |outs| && outs[FallingFrom(outs, i)[k]] == Falling
    ensures forall k, l :: 0 <= k < l < |FallingFrom(outs, i)| ==>
              FallingFrom(outs, i)[k] < FallingFrom(outs, i)[l]
    decreases |outs| - i
  {
    if i < |outs| {
      FallingFromSorted(outs, i + 1);
      var rest := FallingFrom(outs, i + 1);
      var head: seq<nat> := if outs[i] == Falling then [i] else [];
      var idx := head + rest;
      assert idx == FallingFrom(outs, i);
      forall k | 0 <= k < |idx|
        ensures i <= idx[k] < |outs| && outs[idx[k]] == Falling
      {
        if k >= |head| {
          assert idx[k] == rest[k - |head|];
          assert i + 1 <= rest[k - |head|] < |outs|;
        } else {
          assert idx[k] == i && outs[i] == Falling;
        }
      }
      forall k, l | 0 <= k < l < |idx|
        ensures idx[k] < idx[l]
      {
        assert idx[l] == rest[l - |head|];
        assert i + 1 <= rest[l - |head|];
        if k >= |head| {
          assert idx[k] == rest[k - |head|];
          assert rest[k - |head|] < rest[l - |head|];
        } else {
          assert idx[k] == i;
        }
      }
    }
  }

  /** FallingFrom misses no index from i on whose outcome is Falling, and
      it is as long as the number of falling outcomes from i on. */
  lemma {:induction false} FallingFromComplete(outs: seq<Outcome>, i: nat)
    requires i <= |outs|
    ensures forall j :: i <= j < |outs| && outs[j] == Falling ==> j in FallingFrom(outs, i)
    ensures |FallingFrom(outs, i)| == Count(outs[i..], Falling)
    decreases |outs| - i
  {
    if i < |outs| {
      FallingFromComplete(outs, i + 1);
      var rest := FallingFrom(outs, i + 1);
      var head: seq<nat> := if outs[i] == Falling then [i] else [];
      var idx := head + rest;
      assert idx == FallingFrom(outs, i);
      assert outs[i..][1..] == outs[i + 1..];
      forall j | i <= j < |outs| && outs[j] == Falling
        ensures j in idx
      {
        if j == i {
          assert idx[0] == i;
        } else {
          var k :| 0 <= k < |rest| && rest[k] == j;
          assert idx[|head| + k] == j;
        }
      }
    }
  }

  /** The fries at the indices FallingFrom picks, in the same order. */
  function SurvivorsFrom(moved: seq<Frite>, outs: seq<Outcome>, i: nat): (r: seq<Frite>)
    requires |moved| == |outs| && i <= |outs|
    ensures var idx := FallingFrom(outs, i);
            && |r| == |idx|
            && forall k :: 0 <= k < |r| ==> idx[k] < |moved| && r[k] == moved[idx[k]]
    decreases |outs| - i
  {
    if i == |outs| then []
    else
      var rest := SurvivorsFrom(moved, outs, i + 1);
      var head := if outs[i] == Falling then [moved[i]] else [];
      var r := head + rest;
      ghost var later := FallingFrom(outs, i + 1);
      ghost var idx := (if outs[i] == Falling then [i] else []) + later;
      assert idx == FallingFrom(outs, i);
      assert forall k :: 0 <= k < |r| ==> idx[k] < |moved| && r[k] == moved[idx[k]] by {
        forall k | 0 <= k < |r|
          ensures idx[k] < |moved| && r[k] == moved[idx[k]]
        {
          if k >= |head| {
            assert r[k] == rest[k - |head|] && idx[k] == later[k - |head|];
          }
        }
      }
      r
  }

  /** The fries a frame keeps (frites_game.py:449-451): the k-th kept fry is
      the fry at the k-th index whose outcome is Falling, so exactly the
      falling fries are kept, each once, in their original order. */
  function Survivors(moved: seq<Frite>, outs: seq<Outcome>): (r: seq<Frite>)
    requires |moved| == |outs|
    ensures |r| == Count(outs, Falling)
    ensures var idx := FallingFrom(outs, 0);
            |r| == |idx| && forall k :: 0 <= k < |r| ==> idx[k] < |moved| && r[k] == moved[idx[k]]
  {
    FallingFromComplete(outs, 0);
    assert outs[0..] == outs;
    SurvivorsFrom(moved, outs, 0)
  }

  /** What a frame needs: a positive spawn rate for the modulo, a spawn
      position in range, and one updated position per fry on the list. */
  predicate CanFrame(g: Game, spawnX: int, moved: seq<Frite>)
  {
    Running(g) ==>
      && g.spawnRate > 0
      && SpawnMargin <= spawnX <= WindowWidth - SpawnMargin
      && |moved| == |SpawnedFries(g, spawnX)|
  }

  /** One call of game_loop (frites_game.py:405-460) without the redraw and
      the rescheduling. `moved` holds every fry's position after its own
      update; a fry the loop never reached keeps its old position. */
  function Frame(g: Game, spawnX: int, moved: seq<Frite>): (r: Game)
    requires CanFrame(g, spawnX, moved)
    ensures !Running(g) ==> r == g
    ensures Running(g) ==>
              && r.started && r.frameCount == g.frameCount + 1
              && r.paddle == Update(g.paddle)
              && r.spawnRate == NextRate(g.spawnRate, g.frameCount + 1)
    ensures Running(g) && !r.gameOver ==>
              var outs := Outcomes(Update(g.paddle), moved);
              && TallyOf(r) == Fold(TallyOf(g), outs)
              && r.fries == Survivors(moved, outs)
    ensures Running(g) && r.gameOver ==>
              var outs := Outcomes(Update(g.paddle), moved);
              exists k :: 0 <= k < |outs| && outs[k] == Missed
                          && TallyOf(r) == Fold(TallyOf(g), outs[..k + 1])
                          && r.fries == moved[..k + 1] + SpawnedFries(g, spawnX)[k + 1..]
  {
    if !g.started || g.gameOver then g
    else
      var frame := g.frameCount + 1;
      var fries := SpawnedFries(g, spawnX);
      var paddle := Update(g.paddle);
      var outs := Outcomes(paddle, moved);
      SettleMatchesFold(TallyOf(g), outs);
      var settled := Settle(TallyOf(g), outs);
      var t := settled.tally;
      var next := g.(frameCount := frame, spawnRate := NextRate(g.spawnRate, frame),
                     paddle := paddle, score := t.score, lives := t.lives,
                     combo := t.combo, maxCombo := t.maxCombo);
      match settled.stop
      case Some(k) => next.(gameOver := true, fries := moved[..k + 1] + fries[k + 1..])
      case None => next.(fries := Survivors(moved, outs))
  }

  // ---------------------------------------------------------------------
  // Input handlers
  // ---------------------------------------------------------------------

  /** on_mouse_move (frites_game.py:244-246): the packet follows the pointer
      only while a game is running. */
  function OnMouseMove(g: Game, ex: int): (r: Game)
    ensures Running(g) ==> r == g.(paddle := MoveTo(g.paddle, ex))
    ensures !Running(g) ==> r == g
    ensures r.paddle.x == g.paddle.x && r.paddle.y == g.paddle.y
  {
    if g.started && !g.gameOver then g.(paddle := MoveTo(g.paddle, ex)) else g
  }

  /** on_click and start_game (frites_game.py:218-225): the first click
      starts the game and runs a frame at once; later clicks do nothing. */
  function OnClick(g: Game, spawnX: int, moved: seq<Frite>): (r: Game)
    requires !g.started ==> CanFrame(g.(started := true), spawnX, moved)
    ensures g.started ==> r == g
    ensures !g.started ==> r == Frame(g.(started := true), spawnX, moved)
    ensures !g.started && !g.gameOver ==> r.started && r.frameCount == g.frameCount + 1
  {
    if !g.started then Frame(g.(started := true), spawnX, moved) else g
  }

  /** restart_game (frites_game.py:227-242): every counter back to its
      start value and the packet recentred, but the spawn rate the ramp
      has lowered stays as it is. */
  function RestartGame(g: Game): (r: Game)
    ensures r == Waiting(g.spawnRate).(paddle := Start.(y := g.paddle.y))
  {
    g.(fries := [], score := 0, lives := StartLives, combo := 0, maxCombo := 0,
       gameOver := false, started := false, frameCount := 0,
       paddle := g.paddle.(x := WindowWidth / 2, targetX := WindowWidth / 2))
  }

  /** A record waiting for its first click is the fresh one. */
  predicate StatusOk(g: Game)
  {
    !g.started ==> g == Waiting(g.spawnRate)
  }

  // ---------------------------------------------------------------------
  // The invariant
  // ---------------------------------------------------------------------

  /** What holds of every record the program can reach: lives within 0..3
      and the game over exactly when none are left; the combo between 0 and
      the best combo; a non-negative score; an even spawn rate between 20
      and 40; the packet at its fixed height with position and target on
      screen; and a record waiting for a click is a fresh one. */
  predicate Inv(g: Game)
  {
    && TallyOk(TallyOf(g))
    && (g.gameOver <==> g.lives == 0)
    && RampFloor <= g.spawnRate <= InitialSpawnRate && g.spawnRate % 2 == 0
    && g.paddle.y == Start.y
    && MinTarget <= g.paddle.x <= MaxTarget && MinTarget <= g.paddle.targetX <= MaxTarget
    && g.frameCount >= 0
    && StatusOk(g)
  }

  /** The ramp keeps the rate even and never takes it below 20. */
  lemma RampStaysInRange(rate: int, frame: int)
    requires RampFloor <= rate <= InitialSpawnRate && rate % 2 == 0
    ensures RampFloor <= NextRate(rate, frame) <= rate
    ensures NextRate(rate, frame) % 2 == 0
  {
  }

  lemma FramePreservesInv(g: Game, spawnX: int, moved: seq<Frite>)
    requires Inv(g) && CanFrame(g, spawnX, moved)
    ensures Inv(Frame(g, spawnX, moved))
  {
    if Running(g) {
      SettleKeepsTally(TallyOf(g), Outcomes(Update(g.paddle), moved));
      RampStaysInRange(g.spawnRate, g.frameCount + 1);
      ChaseStaysOnScreen(g.paddle, 1);
      assert Chase(g.paddle, 1) == Update(g.paddle);
    }
  }

  /** The rate n frames after frame `from`, the ramp applied once per frame. */
  function RateAfter(rate: int, from: int, n: nat): int
    decreases n
  {
    if n == 0 then rate else RateAfter(NextRate(rate, from + 1), from + 1, n - 1)
  }

  /** The rate the ramp gives at a frame number, counting from 40. */
  function Scheduled(frame: int): int
  {
    Max(RampFloor, InitialSpawnRate - RampStep * (frame / RampEvery))
  }

  /** The ramp in closed form: counting from frame f at the rate the
      schedule gives for f, after n more frames the rate is the one the
      schedule gives for f + n, max(20, 40 - 2 * ((f + n) / 500)). */
  lemma {:induction false} RateSchedule(from: nat, n: nat)
    ensures RateAfter(Scheduled(from), from, n) == Scheduled(from + n)
    decreases n
  {
    if n > 0 {
      var q := from / RampEvery;
      if (from + 1) % RampEvery == 0 {
        assert (from + 1) / RampEvery == q + 1;
      } else {
        assert (from + 1) / RampEvery == q;
      }
      RateSchedule(from + 1, n - 1);
    }
  }

  // ---------------------------------------------------------------------
  // Inputs
  // ---------------------------------------------------------------------

  /** The bound events (frites_game.py:140-143) and the timer; a click and
      the timer carry what a frame needs. */
  datatype Input =
    | MouseMove(ex: int)
    | Click(clickSpawnX: int, clickMoved: seq<Frite>)
    | RestartKey
    | Timer(spawnX: int, moved: seq<Frite>)

  predicate CanStep(g: Game, e: Input)
  {
    match e
    case MouseMove(_) => true
    case Click(x, m) => !g.started ==> CanFrame(g.(started := true), x, m)
    case RestartKey => true
    case Timer(x, m) => CanFrame(g, x, m)
  }

  /** What each input may touch: a mouse move only the target, a click
      only a game not yet started, the timer only a running game, and a
      restart brings back the waiting record with the rate it had. No input
      moves the packet off its row. */
  function Step(g: Game, e: Input): (r: Game)
    requires CanStep(g, e)
    ensures e.MouseMove? ==> r.paddle.x == g.paddle.x && r == g.(paddle := r.paddle)
    ensures e.Click? && g.started ==> r == g
    ensures e.Timer? && !Running(g) ==> r == g
    ensures e.RestartKey? ==> !r.started && r.spawnRate == g.spawnRate
                              && r.score == 0 && r.lives == StartLives && r.fries == []
    ensures r.paddle.y == g.paddle.y
  {
    match e
    case MouseMove(ex) => OnMouseMove(g, ex)
    case Click(x, m) => OnClick(g, x, m)
    case RestartKey => RestartGame(g)
    case Timer(x, m) => Frame(g, x, m)
  }

  /** Every input keeps the invariant. */
  lemma StepPreservesInv(g: Game, e: Input)
    requires Inv(g) && CanStep(g, e)
    ensures Inv(Step(g, e))
  {
    match e
    case MouseMove(_) =>
    case Click(x, m) =>
      if !g.started {
        FramePreservesInv(g.(started := true), x, m);
      }
    case RestartKey =>
    case Timer(x, m) =>
      FramePreservesInv(g, x, m);
  }

  /** Within a run, that is between restarts, the best combo and the score
      never drop and the spawn rate never rises. */
  lemma StepIsMonotone(g: Game, e: Input)
    requires Inv(g) && CanStep(g, e) && !e.RestartKey?
    ensures Step(g, e).maxCombo >= g.maxCombo
    ensures Step(g, e).score >= g.score
    ensures Step(g, e).spawnRate <= g.spawnRate
  {
    match e
    case MouseMove(_) =>
    case Click(x, m) =>
      if !g.started {
        SettleKeepsTally(TallyOf(g), Outcomes(Update(g.paddle), m));
      }
    case Timer(x, m) =>
      if Running(g) {
        SettleKeepsTally(TallyOf(g), Outcomes(Update(g.paddle), m));
      }
  }

  /** A run feeds inputs one after another. */
  predicate Feasible(g: Game, run: seq<Input>)
    decreases |run|
  {
    |run| == 0 || (CanStep(g, run[0]) && Feasible(Step(g, run[0]), run[1..]))
  }

  function Run(g: Game, run: seq<Input>): Game
    requires Feasible(g, run)
    decreases |run|
  {
    if |run| == 0 then g else Run(Step(g, run[0]), run[1..])
  }

  /** The constructor's record satisfies the invariant, and every run from
      a record that does keeps it. */
  lemma {:induction false} RunPreservesInv(g: Game, run: seq<Input>)
    requires Inv(g) && Feasible(g, run)
    ensures Inv(Initial)
    ensures Inv(Run(g, run))
    decreases |run|
  {
    if |run| > 0 {
      StepPreservesInv(g, run[0]);
      RunPreservesInv(Step(g, run[0]), run[1..]);
    }
  }

  /** Over any run without a restart the best combo and the score never
      drop and the spawn rate never rises. */
  lemma {:induction false} RunIsMonotone(g: Game, run: seq<Input>)
    requires Inv(g) && Feasible(g, run)
    requires forall i :: 0 <= i < |run| ==> !run[i].RestartKey?
    ensures Run(g, run).maxCombo >= g.maxCombo
    ensures Run(g, run).score >= g.score
    ensures Run(g, run).spawnRate <= g.spawnRate
    decreases |run|
  {
    if |run| > 0 {
      StepIsMonotone(g, run[0]);
      StepPreservesInv(g, run[0]);
      RunIsMonotone(Step(g, run[0]), run[1..]);
    }
  }

  /** The timer does nothing to a game that is not running, however often
      it fires. */
  lemma {:induction false} IdleTimerRun(g: Game, run: seq<Input>)
    requires Feasible(g, run) && !Running(g)
    requires forall i :: 0 <= i < |run| ==> run[i].Timer?
    ensures Run(g, run) == g
    decreases |run|
  {
    if |run| > 0 {
      IdleTimerRun(Step(g, run[0]), run[1..]);
    }
  }

  /** A game the timer keeps running for n frames lowers its spawn rate
      exactly as the ramp does frame by frame, and counts n frames. */
  lemma {:induction false} TimerRunFollowsRamp(g: Game, run: seq<Input>)
    requires Feasible(g, run) && Running(Run(g, run))
    requires forall i :: 0 <= i < |run| ==> run[i].Timer?
    ensures Run(g, run).spawnRate == RateAfter(g.spawnRate, g.frameCount, |run|)
    ensures Run(g, run).frameCount == g.frameCount + |run|
    decreases |run|
  {
    if |run| > 0 {
      var next := Step(g, run[0]);
      var rest := run[1..];
      assert forall i :: 0 <= i < |rest| ==> rest[i] == run[i + 1];
      assert Run(g, run) == Run(next, rest);
      if !Running(g) {
        IdleTimerRun(g, run);
        assert false;
      }
      if !Running(next) {
        IdleTimerRun(next, rest);
        assert false;
      }
      assert next.frameCount == g.frameCount + 1;
      assert next.spawnRate == NextRate(g.spawnRate, g.frameCount + 1);
      TimerRunFollowsRamp(next, rest);
    }
  }

  /** The rate is the one the ramp gives for the frame count. */
  predicate OnSchedule(g: Game)
  {
    g.frameCount >= 0 && g.spawnRate == Scheduled(g.frameCount)
  }

  /** Every input but a restart keeps the rate on schedule: only a frame
      changes the frame count, and it applies the ramp once. */
  lemma StepKeepsSchedule(g: Game, e: Input)
    requires CanStep(g, e) && !e.RestartKey? && OnSchedule(g)
    ensures OnSchedule(Step(g, e))
  {
    match e
    case MouseMove(_) =>
    case Click(x, m) =>
      if !g.started && !g.gameOver {
        RateSchedule(g.frameCount, 1);
      }
    case Timer(x, m) =>
      if Running(g) {
        RateSchedule(g.frameCount, 1);
      }
  }

  /** The constructor's record is on schedule, and so is every record a run
      without a restart reaches from one that is: the rate is
      max(20, 40 - 2 * (frame / 500)) throughout play and after it ends. */
  lemma {:induction false} RampFollowsSchedule(g: Game, run: seq<Input>)
    requires Feasible(g, run) && OnSchedule(g)
    requires forall i :: 0 <= i < |run| ==> !run[i].RestartKey?
    ensures OnSchedule(Initial)
    ensures OnSchedule(Run(g, run))
    decreases |run|
  {
    if |run| > 0 {
      StepKeepsSchedule(g, run[0]);
      var rest := run[1..];
      assert forall i :: 0 <= i < |rest| ==> rest[i] == run[i + 1];
      RampFollowsSchedule(Step(g, run[0]), rest);
    }
  }
}

=== FILE: frites_paddle.dfy ===
/** The fries packet the player steers in the catcher game (PaquetFrites,
    frites_game.py:41-67): an integer position that chases a clamped target
    at a bounded speed, and the rectangle at its top that catches fries. */
module FritesPaddle {
  import opened Common

  /** The 800 x 600 window (frites_game.py:6-7). */
  const WindowWidth: int := 800
  const WindowHeight: int := 600

  /** The packet's size and speed (frites_game.py:45-48). */
  const PaddleWidth: int := 80
  const PaddleHeight: int := 100
  const PaddleSpeed: int := 15

  /** Distances up to this leave the packet where it is (frites_game.py:54). */
  const DeadBand: int := 2

  /** The range move_to keeps the target in: half a packet from each edge. */
  const MinTarget: int := PaddleWidth / 2
  const MaxTarget: int := WindowWidth - PaddleWidth / 2

  datatype Paquet = Paquet(x: int, y: int, targetX: int)

  /** The packet the game creates, centred 80 pixels above the bottom
      (frites_game.py:129). */
  const Start: Paquet := Paquet(WindowWidth / 2, WindowHeight - 80, WindowWidth / 2)

  /** move_to (frites_game.py:50-51): the pointer's x, clamped. */
  function MoveTo(p: Paquet, tx: int): (r: Paquet)
    ensures r.x == p.x && r.y == p.y
    ensures MinTarget <= r.targetX <= MaxTarget
    ensures MinTarget <= tx <= MaxTarget ==> r.targetX == tx
    ensures tx < MinTarget ==> r.targetX == MinTarget
    ensures tx > MaxTarget ==> r.targetX == MaxTarget
  {
    p.(targetX := Max(MinTarget, Min(MaxTarget, tx)))
  }

  /** Aiming again at the clamped target changes nothing, and of all
      reachable targets the clamped one is nearest to the pointer. */
  lemma MoveToIsNearestClamp(p: Paquet, tx: int, other: int)
    requires MinTarget <= other <= MaxTarget
    ensures MoveTo(MoveTo(p, tx), MoveTo(p, tx).targetX) == MoveTo(p, tx)
    ensures Abs(MoveTo(p, tx).targetX - tx) <= Abs(other - tx)
  {
  }

  /** update (frites_game.py:53-58): one frame of chasing the target. */
  function Update(p: Paquet): (r: Paquet)
    ensures r.y == p.y && r.targetX == p.targetX
    ensures Abs(p.x - p.targetX) <= DeadBand ==> r.x == p.x
    ensures Abs(p.x - p.targetX) > DeadBand ==>
              && Abs(r.x - p.x) <= PaddleSpeed
              && Abs(r.x - p.targetX) < Abs(p.x - p.targetX)
              && (p.x < p.targetX ==> p.x < r.x <= p.targetX)
              && (p.x > p.targetX ==> p.targetX <= r.x < p.x)
              && (Abs(p.x - p.targetX) <= PaddleSpeed ==> r.x == p.targetX)
              && (Abs(p.x - p.targetX) > PaddleSpeed ==> Abs(r.x - p.x) == PaddleSpeed)
  {
    if Abs(p.x - p.targetX) > DeadBand then
      if p.x < p.targetX then p.(x := Min(p.x + PaddleSpeed, p.targetX))
      else p.(x := Max(p.x - PaddleSpeed, p.targetX))
    else p
  }

  /** n frames of update with no pointer movement in between. */
  function Chase(p: Paquet, n: nat): Paquet
    decreases n
  {
    if n == 0 then p else Chase(Update(p), n - 1)
  }

  /** With the target fixed, the packet settles within the dead band after
      enough frames: one frame per 15 pixels of distance beyond the band. */
  lemma {:induction false} ChaseSettles(p: Paquet, n: nat)
    requires Abs(p.x - p.targetX) <= DeadBand + n * PaddleSpeed
    ensures Abs(Chase(p, n).x - p.targetX) <= DeadBand
    ensures Chase(p, n).targetX == p.targetX
    decreases n
  {
    if n > 0 {
      var q := Update(p);
      if Abs(p.x - p.targetX) <= DeadBand {
        assert q == p;
      } else if Abs(p.x - p.targetX) <= PaddleSpeed {
        assert q.x == q.targetX;
      } else {
        assert Abs(q.x - q.targetX) == Abs(p.x - p.targetX) - PaddleSpeed;
      }
      ChaseSettles(q, n - 1);
    }
  }

  /** A packet on screen chasing an on-screen target stays on screen. */
  lemma {:induction false} ChaseStaysOnScreen(p: Paquet, n: nat)
    requires MinTarget <= p.x <= MaxTarget && MinTarget <= p.targetX <= MaxTarget
    ensures MinTarget <= Chase(p, n).x <= MaxTarget
    decreases n
  {
    if n > 0 {
      ChaseStaysOnScreen(Update(p), n - 1);
    }
  }

  datatype Rect = Rect(left: int, top: int, right: int, bottom: int)

  /** get_catch_rect (frites_game.py:60-67): the top 20 pixels of the
      packet, as wide as the packet. */
  function CatchRect(p: Paquet): (r: Rect)
    ensures r.right - r.left == PaddleWidth && r.left + r.right == 2 * p.x
    ensures r.top == p.y - PaddleHeight / 2 && r.bottom - r.top == 20
  {
    Rect(p.x - PaddleWidth / 2, p.y - PaddleHeight / 2,
         p.x + PaddleWidth / 2, p.y - PaddleHeight / 2 + 20)
  }
}

=== FILE: snake_game.dfy ===
/** The snake game's state machine (snake.py), without any drawing.

    One immutable record holds everything snake.py keeps in the fields of
    SnakeGame: the body (head first), the committed heading, the heading
    buffered for the next tick, the food cell, the score and the three status
    flags. Every input handler and the timer callback is a pure function from
    record to record. Randomness enters as a sequence of draws, one grid cell
    per pair of random.randint calls. */
module SnakeGame {
  import opened Common
  import opened SnakeGrid

  /** Points per food eaten (snake.py:235). */
  const FoodReward: int := 10

  /** The cell init_game puts the one-cell snake on (snake.py:152). */
  const Center: Cell := (GridWidth / 2, GridHeight / 2)

  datatype Snake = Snake(
    body: seq<Cell>,
    direction: Dir,
    nextDirection: Dir,
    food: Option<Cell>,
    score: int,
    gameOver: bool,
    paused: bool,
    started: bool)

  /** The record as the constructor leaves it, before any key (snake.py:82-89). */
  const Initial: Snake := Snake([], Right, Right, None, 0, false, false, false)

  /** The status the three flags encode; toggle_pause and game_loop test the
      flags in this order (snake.py:172, 354). */
  datatype Status = NotStarted | Running | Paused | Over

  function StatusOf(s: Snake): Status
  {
    if !s.started then NotStarted
    else if s.gameOver then Over
    else if s.paused then Paused
    else Running
  }

  // ---------------------------------------------------------------------
  // spawn_food: rejection sampling over a stream of random draws
  // ---------------------------------------------------------------------

  /** Each draw is (randint(0, GRID_WIDTH - 1), randint(0, GRID_HEIGHT - 1)). */
  predicate ValidDraws(draws: seq<Cell>)
  {
    forall i :: 0 <= i < |draws| ==> InBounds(draws[i])
  }

  /** The stream reaches a cell the body does not cover, so the sampling
      loop stops within it. */
  predicate HasFree(draws: seq<Cell>, body: seq<Cell>)
  {
    exists i :: 0 <= i < |draws| && draws[i] !in body
  }

  /** The position of the draw the rejection loop accepts: the first one
      that is not a body cell. */
  function FreeIndex(draws: seq<Cell>, body: seq<Cell>): (i: nat)
    requires HasFree(draws, body)
    ensures i < |draws| && draws[i] !in body
    ensures forall j :: 0 <= j < i ==> draws[j] in body
  {
    if draws[0] !in body then 0
    else
      assert HasFree(draws[1..], body) by {
        var k :| 0 <= k < |draws| && draws[k] !in body;
        assert draws[1..][k - 1] == draws[k];
      }
      FreeIndex(draws[1..], body) + 1
  }

  /** spawn_food (snake.py:207-214): the accepted cell and the draws left
      over for later calls. */
  function SpawnFood(body: seq<Cell>, draws: seq<Cell>): (r: (Cell, seq<Cell>))
    requires ValidDraws(draws) && HasFree(draws, body)
    ensures InBounds(r.0) && r.0 !in body
    ensures r.0 in draws && ValidDraws(r.1) && |r.1| < |draws|
  {
    var i := FreeIndex(draws, body);
    (draws[i], draws[i + 1..])
  }

  // ---------------------------------------------------------------------
  // move_snake
  // ---------------------------------------------------------------------

  /** The cell the head enters on the next tick, after the buffered heading
      has been committed (snake.py:218-220). */
  function NextHead(s: Snake): Cell
    requires |s.body| > 0
  {
    Add(s.body[0], Delta(s.nextDirection))
  }

  /** The move fails: wall, or any body cell including the current tail. */
  predicate Crashes(s: Snake)
    requires |s.body| > 0
  {
    !InBounds(NextHead(s)) || NextHead(s) in s.body
  }

  predicate Eats(s: Snake)
    requires |s.body| > 0
  {
    !Crashes(s) && s.food == Some(NextHead(s))
  }

  /** What a tick needs from its caller and from the random stream: a head
      to move, and a free cell for spawn_food if the food gets eaten. */
  predicate CanMove(s: Snake, draws: seq<Cell>)
  {
    |s.body| > 0 && ValidDraws(draws)
    && (Eats(s) ==> HasFree(draws, [NextHead(s)] + s.body))
  }

  datatype Move = Move(ok: bool, state: Snake)

  /** move_snake (snake.py:216-241). The heading is committed even when the
      move then fails. */
  function MoveSnake(s: Snake, draws: seq<Cell>): (m: Move)
    requires CanMove(s, draws)
    ensures m.state.direction == s.nextDirection
    ensures m.state.nextDirection == s.nextDirection
    ensures m.state.gameOver == s.gameOver && m.state.paused == s.paused
    ensures m.state.started == s.started
    ensures m.ok <==> InBounds(NextHead(s)) && NextHead(s) !in s.body
    ensures !m.ok ==> m.state.body == s.body && m.state.score == s.score
                      && m.state.food == s.food
    ensures m.ok ==> |m.state.body| > 0 && m.state.body[0] == NextHead(s)
    ensures m.ok && s.food == Some(NextHead(s)) ==>
              && m.state.score == s.score + FoodReward
              && m.state.body == [NextHead(s)] + s.body
              && m.state.food.Some?
              && InBounds(m.state.food.value)
              && m.state.food.value !in m.state.body
    ensures m.ok && s.food != Some(NextHead(s)) ==>
              && m.state.score == s.score
              && |m.state.body| == |s.body|
              && m.state.body[1..] == s.body[..|s.body| - 1]
              && m.state.food == s.food
  {
    var committed := s.(direction := s.nextDirection);
    var head := Add(s.body[0], Delta(committed.direction));
    if head.0 < 0 || head.0 >= GridWidth || head.1 < 0 || head.1 >= GridHeight then
      Move(false, committed)
    else if head in s.body then
      Move(false, committed)
    else
      var grown := [head] + s.body;
      if s.food == Some(head) then
        var spawned := SpawnFood(grown, draws);
        Move(true, committed.(body := grown, score := s.score + FoodReward, food := Some(spawned.0)))
      else
        assert grown[..|grown| - 1][1..] == s.body[..|s.body| - 1];
        Move(true, committed.(body := grown[..|grown| - 1]))
  }

  // ---------------------------------------------------------------------
  // game_loop, init_game, restart_game, toggle_pause, change_direction
  // ---------------------------------------------------------------------

  /** One timer callback, game_loop (snake.py:352-363), without the redraw
      and the rescheduling. */
  function GameLoop(s: Snake, draws: seq<Cell>): (r: Snake)
    requires !s.gameOver && !s.paused ==> CanMove(s, draws)
    ensures s.gameOver || s.paused ==> r == s
    ensures !s.gameOver && !s.paused ==>
              && (r.gameOver <==> Crashes(s))
              && r.direction == s.nextDirection
              && !r.paused && r.started == s.started
    ensures !s.gameOver && !s.paused && Crashes(s) ==>
              r == s.(direction := s.nextDirection, gameOver := true)
    ensures !s.gameOver && !s.paused && !Crashes(s) ==>
              r == MoveSnake(s, draws).state
  {
    if s.gameOver || s.paused then s
    else
      var m := MoveSnake(s, draws);
      if !m.ok then m.state.(gameOver := true) else m.state
  }

  /** The record init_game builds before it spawns food (snake.py:152-158). */
  const Fresh: Snake := Snake([Center], Right, Right, None, 0, false, false, true)

  /** The random stream init_game needs: a free cell for its own spawn_food,
      then whatever the first tick needs. */
  predicate CanInit(draws: seq<Cell>)
  {
    && ValidDraws(draws)
    && HasFree(draws, [Center])
    && var spawned := SpawnFood([Center], draws);
       CanMove(Fresh.(food := Some(spawned.0)), spawned.1)
  }

  /** init_game (snake.py:150-162): reset, spawn food, and run the first
      tick straight away, so the snake has already stepped right once. */
  function InitGame(draws: seq<Cell>): (r: Snake)
    requires CanInit(draws)
    ensures StatusOf(r) == Running
    ensures r.direction == Right && r.nextDirection == Right
    ensures r.body == [(Center.0 + 1, Center.1)]
            || r.body == [(Center.0 + 1, Center.1), Center]
    ensures r.score == FoodReward * (|r.body| - 1)
    ensures WellFormed(r.body)
    ensures r.food.Some? && InBounds(r.food.value) && r.food.value !in r.body
  {
    var spawned := SpawnFood([Center], draws);
    var s := Fresh.(food := Some(spawned.0));
    assert Adjacent(NextHead(s), Center);
    GameLoop(s, spawned.1)
  }

  /** restart_game (snake.py:164-168): whatever the state, a new game
      starts through init_game. */
  function RestartGame(s: Snake, draws: seq<Cell>): (r: Snake)
    requires CanInit(draws)
    ensures StatusOf(r) == Running
    ensures r.direction == Right && r.nextDirection == Right
    ensures r.body == [(Center.0 + 1, Center.1)]
            || r.body == [(Center.0 + 1, Center.1), Center]
    ensures Inv(r)
  {
    InitGame(draws)
  }

  /** Nothing of the old game survives a restart: two games restarted with
      the same draws are the same game. */
  lemma RestartForgetsState(s: Snake, t: Snake, draws: seq<Cell>)
    requires CanInit(draws)
    ensures RestartGame(s, draws) == RestartGame(t, draws)
  {
  }

  /** toggle_pause (snake.py:170-178): flips the pause flag of a started,
      unfinished game; resuming runs a tick at once. */
  function TogglePause(s: Snake, draws: seq<Cell>): (r: Snake)
    requires StatusOf(s) == Paused ==> CanMove(s, draws)
    ensures StatusOf(s) == Running ==> r == s.(paused := true) && StatusOf(r) == Paused
    ensures StatusOf(s) == Paused ==> r == GameLoop(s.(paused := false), draws)
    ensures StatusOf(s) == NotStarted || StatusOf(s) == Over ==> r == s
  {
    if s.started && !s.gameOver then
      var flipped := s.(paused := !s.paused);
      if flipped.paused then flipped else GameLoop(flipped, draws)
    else s
  }

  /** Pausing a running game and resuming it at once is one tick. */
  lemma PauseResumeIsOneTick(s: Snake, draws: seq<Cell>)
    requires StatusOf(s) == Running && CanMove(s, draws)
    ensures StatusOf(TogglePause(s, draws)) == Paused
    ensures TogglePause(TogglePause(s, draws), draws) == GameLoop(s, draws)
  {
    assert s.(paused := true).(paused := false) == s;
  }

  /** change_direction (snake.py:197-205). Before the game starts an arrow
      key only starts it; afterwards the request is buffered unless it
      reverses the committed heading. */
  function ChangeDirection(s: Snake, d: Dir, draws: seq<Cell>): (r: Snake)
    requires !s.started ==> CanInit(draws)
    ensures !s.started ==> r == InitGame(draws) && r.nextDirection == Right
    ensures s.started && d != Opposite(s.direction) ==> r == s.(nextDirection := d)
    ensures s.started && d == Opposite(s.direction) ==> r == s
  {
    NegatedDeltaIsOpposite(d, s.direction);
    if !s.started then InitGame(draws)
    else if (Delta(d).0 * -1, Delta(d).1 * -1) != Delta(s.direction) then
      s.(nextDirection := d)
    else s
  }

  // ---------------------------------------------------------------------
  // The invariant and its preservation
  // ---------------------------------------------------------------------

  /** What holds of every record the program can reach: before the first
      key nothing has changed; afterwards the body is well formed, the food
      is a free cell, the buffered heading never reverses the committed one,
      every food eaten added one cell and ten points, and a finished game is
      never paused. */
  predicate Inv(s: Snake)
  {
    if !s.started then s == Initial
    else
      && WellFormed(s.body)
      && s.food.Some? && InBounds(s.food.value) && s.food.value !in s.body
      && s.nextDirection != Opposite(s.direction)
      && s.score == FoodReward * (|s.body| - 1)
      && !(s.paused && s.gameOver)
  }

  /** A successful move keeps the body well formed and the food off it. */
  lemma MovePreservesInv(s: Snake, draws: seq<Cell>)
    requires Inv(s) && s.started && CanMove(s, draws)
    ensures Inv(MoveSnake(s, draws).state)
  {
  }

  /** A tick never commits the reverse of the heading committed on the tick
      before it (snake.py:204-205, 218). */
  lemma TickNeverReverses(s: Snake, draws: seq<Cell>)
    requires Inv(s) && s.started
    requires !s.gameOver && !s.paused ==> CanMove(s, draws)
    ensures GameLoop(s, draws).direction != Opposite(s.direction)
    ensures GameLoop(s, draws).nextDirection != Opposite(GameLoop(s, draws).direction)
  {
    NegatedDeltaIsOpposite(s.direction, s.direction);
    NegatedDeltaIsOpposite(s.nextDirection, s.nextDirection);
  }

  /** Any burst of arrow keys between two ticks leaves the committed heading
      alone and the buffered one never reversing it: only the last accepted
      key counts, and each is checked against the committed heading. */
  function PressArrows(s: Snake, keys: seq<Dir>): Snake
    requires s.started
    decreases |keys|
  {
    if |keys| == 0 then s
    else PressArrows(ChangeDirection(s, keys[0], []), keys[1..])
  }

  lemma {:induction false} ArrowsNeverReverse(s: Snake, keys: seq<Dir>)
    requires Inv(s) && s.started
    ensures PressArrows(s, keys).direction == s.direction
    ensures PressArrows(s, keys).nextDirection != Opposite(s.direction)
    ensures Inv(PressArrows(s, keys))
    decreases |keys|
  {
    if |keys| > 0 {
      ArrowsNeverReverse(ChangeDirection(s, keys[0], []), keys[1..]);
    }
  }

  // ---------------------------------------------------------------------
  // Inputs and runs
  // ---------------------------------------------------------------------

  /** The bound keys (snake.py:92-98) and the timer. */
  datatype Input = Arrow(d: Dir) | Space | RestartKey | Timer

  /** What one input needs: the random draws its spawn_food calls consume,
      and, for the timer, a started game (only init_game arms it). */
  predicate CanStep(s: Snake, e: Input, draws: seq<Cell>)
  {
    match e
    case Arrow(_) => !s.started ==> CanInit(draws)
    case Space => StatusOf(s) == Paused ==> CanMove(s, draws)
    case RestartKey => CanInit(draws)
    case Timer => s.started && (!s.gameOver && !s.paused ==> CanMove(s, draws))
  }

  /** What each input may touch: an arrow in a started game only the
      buffered heading, the space bar only a started game that is not over,
      the timer only a running game, and a restart always yields a new
      running game heading right. */
  function Step(s: Snake, e: Input, draws: seq<Cell>): (r: Snake)
    requires CanStep(s, e, draws)
    ensures e.Arrow? && s.started ==> r == s.(nextDirection := r.nextDirection)
    ensures e.Arrow? && !s.started ==> StatusOf(r) == Running && r.direction == Right
    ensures e.Space? && (StatusOf(s) == NotStarted || StatusOf(s) == Over) ==> r == s
    ensures e.Timer? && StatusOf(s) != Running ==> r == s
    ensures e.RestartKey? ==> StatusOf(r) == Running && r.direction == Right && |r.body| <= 2
  {
    match e
    case Arrow(d) => ChangeDirection(s, d, draws)
    case Space => TogglePause(s, draws)
    case RestartKey => RestartGame(s, draws)
    case Timer => GameLoop(s, draws)
  }

  /** Every input keeps the invariant. */
  lemma StepPreservesInv(s: Snake, e: Input, draws: seq<Cell>)
    requires Inv(s) && CanStep(s, e, draws)
    ensures Inv(Step(s, e, draws))
  {
    match e
    case Arrow(d) =>
    case Space =>
      if StatusOf(s) == Paused {
        MovePreservesInv(s.(paused := false), draws);
      }
    case RestartKey =>
    case Timer =>
      if !s.gameOver && !s.paused {
        MovePreservesInv(s, draws);
      }
  }

  /** A run feeds inputs one after another, each with its own draws. */
  predicate Feasible(s: Snake, run: seq<(Input, seq<Cell>)>)
    decreases |run|
  {
    |run| == 0
    || (CanStep(s, run[0].0, run[0].1) && Feasible(Step(s, run[0].0, run[0].1), run[1..]))
  }

  function Run(s: Snake, run: seq<(Input, seq<Cell>)>): Snake
    requires Feasible(s, run)
    decreases |run|
  {
    if |run| == 0 then s else Run(Step(s, run[0].0, run[0].1), run[1..])
  }

  /** From the constructor's record, every run keeps the invariant. */
  lemma {:induction false} RunPreservesInv(s: Snake, run: seq<(Input, seq<Cell>)>)
    requires Inv(s) && Feasible(s, run)
    ensures Inv(Run(s, run))
    decreases |run|
  {
    if |run| > 0 {
      StepPreservesInv(s, run[0].0, run[0].1);
      RunPreservesInv(Step(s, run[0].0, run[0].1), run[1..]);
    }
  }

  /** A live snake shorter than the grid always leaves spawn_food a free
      cell to find; one that fills the grid leaves none, so its sampling
      loop would never stop. */
  lemma FoodHasRoom(s: Snake)
    requires Inv(s) && s.started
    ensures (exists c :: InBounds(c) && c !in s.body) <==> |s.body| < GridWidth * GridHeight
  {
    FreeCellExistsIff(s.body);
  }

  // ---------------------------------------------------------------------
  // Scenarios
  // ---------------------------------------------------------------------

  /** Heading right at (10,10) with food on (11,10): the tick moves the head
      onto the food, scores ten and grows by one. */
  lemma EatScenario(draws: seq<Cell>)
    requires ValidDraws(draws) && HasFree(draws, [(11, 10), (10, 10)])
    ensures var s := Snake([(10, 10)], Right, Right, Some((11, 10)), 0, false, false, true);
            var r := GameLoop(s, draws);
            r.body == [(11, 10), (10, 10)] && r.score == 10 && !r.gameOver
            && r.food.Some? && r.food.value != (11, 10)
  {
  }

  /** Heading right, a request for left is refused; a request for up then
      left within one tick keeps up buffered. */
  lemma NoReversalScenario(s: Snake)
    requires s.started && s.direction == Right
    ensures ChangeDirection(s, Left, []).nextDirection == s.nextDirection
    ensures PressArrows(s, [Up, Left]).nextDirection == Up
  {
    var up := s.(nextDirection := Up);
    assert [Up, Left][1..] == [Left] && [Left][1..] == [];
    assert PressArrows(s, [Up, Left]) == PressArrows(up, [Left]);
    assert PressArrows(up, [Left]) == PressArrows(up, []);
  }
}

=== FILE: snake_grid.dfy ===
/** The playing field of the snake game: a 30 x 30 grid of integer cells,
    the four headings as unit step vectors, and the shape a snake body must
    keep (cells in bounds, no cell twice, consecutive cells one step apart). */
module SnakeGrid {
  import opened Common

  /** A 600 x 600 pixel window cut into 20-pixel squares (snake.py:6-10). */
  const WindowWidth: int := 600
  const WindowHeight: int := 600
  const GridSize: int := 20
  const GridWidth: int := WindowWidth / GridSize
  const GridHeight: int := WindowHeight / GridSize

  /** A grid cell as (column, row); row 0 is the top of the window. */
  type Cell = (int, int)

  /** The four headings; Delta gives the unit step snake.py binds to each
      arrow key (snake.py:23-26). */
  datatype Dir = Up | Down | Left | Right

  function Delta(d: Dir): Cell
  {
    match d
    case Up => (0, -1)
    case Down => (0, 1)
    case Left => (-1, 0)
    case Right => (1, 0)
  }

  /** The heading that would turn the snake back onto itself. */
  function Opposite(d: Dir): Dir
  {
    match d
    case Up => Down
    case Down => Up
    case Left => Right
    case Right => Left
  }

  /** change_direction's reversal test negates the requested vector and compares
      it with the committed one; that is exactly "is the opposite heading". */
  lemma NegatedDeltaIsOpposite(requested: Dir, current: Dir)
    ensures ((-Delta(requested).0, -Delta(requested).1) == Delta(current))
            <==> requested == Opposite(current)
    ensures Opposite(current) != current
    ensures Opposite(Opposite(current)) == current
  {
  }

  function Add(c: Cell, v: Cell): Cell
  {
    (c.0 + v.0, c.1 + v.1)
  }

  predicate InBounds(c: Cell)
  {
    0 <= c.0 < GridWidth && 0 <= c.1 < GridHeight
  }

  /** Two cells one unit step apart along exactly one axis. */
  predicate Adjacent(a: Cell, b: Cell)
  {
    Abs(a.0 - b.0) + Abs(a.1 - b.1) == 1
  }

  predicate AllInBounds(body: seq<Cell>)
  {
    forall i :: 0 <= i < |body| ==> InBounds(body[i])
  }

  predicate Distinct(body: seq<Cell>)
  {
    forall i, j :: 0 <= i < j < |body| ==> body[i] != body[j]
  }

  predicate Connected(body: seq<Cell>)
  {
    forall i :: 0 <= i < |body| - 1 ==> Adjacent(body[i], body[i + 1])
  }

  /** The shape every live snake keeps: non-empty, on the board, no cell
      twice, and each cell one orthogonal step from the next. */
  predicate WellFormed(body: seq<Cell>)
  {
    |body| >= 1 && AllInBounds(body) && Distinct(body) && Connected(body)
  }

  /** A step along any heading lands on an adjacent cell. */
  lemma StepIsAdjacent(c: Cell, d: Dir)
    ensures Adjacent(Add(c, Delta(d)), c)
    ensures Add(c, Delta(d)) != c
  {
  }

  /** Prepending a fresh in-bounds cell next to the head keeps the shape. */
  lemma PrependKeepsShape(h: Cell, body: seq<Cell>)
    requires WellFormed(body)
    requires InBounds(h) && h !in body && Adjacent(h, body[0])
    ensures WellFormed([h] + body)
  {
  }

  /** Dropping the last cell of a snake of two or more cells keeps the shape. */
  lemma DropLastKeepsShape(body: seq<Cell>)
    requires WellFormed(body) && |body| >= 2
    ensures WellFormed(body[..|body| - 1])
  {
  }

  // ---------------------------------------------------------------------
  // Counting cells: a free cell exists exactly when the snake is shorter
  // than the grid. spawn_food (snake.py:207-214) only terminates if one does.
  // ---------------------------------------------------------------------

  /** The first n columns of one row. */
  function RowCells(y: int, n: nat): set<Cell>
  {
    set x | 0 <= x < n :: (x, y)
  }

  /** The first n rows of the grid, all columns. */
  function GridCells(n: nat): set<Cell>
  {
    set x, y | 0 <= x < GridWidth && 0 <= y < n :: (x, y)
  }

  lemma RowCellsMember(c: Cell, y: int, n: nat)
    ensures c in RowCells(y, n) <==> 0 <= c.0 < n && c.1 == y
  {
    if 0 <= c.0 < n && c.1 == y {
      var x := c.0;
      assert (x, y) in RowCells(y, n);
    }
  }

  lemma GridCellsMember(c: Cell, n: nat)
    ensures c in GridCells(n) <==> 0 <= c.0 < GridWidth && 0 <= c.1 < n
  {
    if 0 <= c.0 < GridWidth && 0 <= c.1 < n {
      var x, y := c.0, c.1;
      assert (x, y) in GridCells(n);
    }
  }

  lemma {:induction false} RowCellsCount(y: int, n: nat)
    ensures |RowCells(y, n)| == n
  {
    if n > 0 {
      RowCellsCount(y, n - 1);
      var prev := RowCells(y, n - 1);
      assert RowCells(y, n) == prev + {(n - 1, y)} by {
        forall c ensures c in RowCells(y, n) <==> c in prev + {(n - 1, y)} {
          RowCellsMember(c, y, n);
          RowCellsMember(c, y, n - 1);
        }
      }
      RowCellsMember((n - 1, y), y, n - 1);
    } else {
      assert RowCells(y, n) == {};
    }
  }

  lemma {:induction false} GridCellsCount(n: nat)
    ensures |GridCells(n)| == GridWidth * n
  {
    if n > 0 {
      GridCellsCount(n - 1);
      RowCellsCount(n - 1, GridWidth);
      var prev := GridCells(n - 1);
      var row := RowCells(n - 1, GridWidth);
      assert GridCells(n) == prev + row by {
        forall c ensures c in GridCells(n) <==> c in prev + row {
          GridCellsMember(c, n);
          GridCellsMember(c, n - 1);
          RowCellsMember(c, n - 1, GridWidth);
        }
      }
      assert prev !! row by {
        forall c | c in row ensures c !in prev {
          GridCellsMember(c, n - 1);
          RowCellsMember(c, n - 1, GridWidth);
        }
      }
      assert |prev + row| == |prev| + |row|;
      assert GridWidth == 30;
      assert GridWidth * n == GridWidth * (n - 1) + GridWidth;
    } else {
      assert GridCells(n) == {};
    }
  }

  lemma GridCellsAreInBounds(c: Cell)
    ensures c in GridCells(GridHeight) <==> InBounds(c)
  {
    GridCellsMember(c, GridHeight);
  }

  lemma {:induction false} SetOfSeqSize(s: seq<Cell>)
    ensures |set i | 0 <= i < |s| :: s[i]| <= |s|
    ensures Distinct(s) ==> |set i | 0 <= i < |s| :: s[i]| == |s|
  {
    var all := set i | 0 <= i < |s| :: s[i];
    if |s| > 0 {
      var init := s[..|s| - 1];
      SetOfSeqSize(init);
      var prev := set i | 0 <= i < |init| :: init[i];
      assert all == prev + {s[|s| - 1]} by {
        forall c | c in all ensures c in prev + {s[|s| - 1]} {
          var i :| 0 <= i < |s| && s[i] == c;
          if i < |s| - 1 {
            assert init[i] == c;
          }
        }
      }
      if Distinct(s) {
        assert s[|s| - 1] !in prev;
      }
    } else {
      assert all == {};
    }
  }

  lemma SubsetSize(a: set<Cell>, b: set<Cell>)
    requires a <= b
    ensures |a| <= |b|
  {
    assert b == a + (b - a);
  }

  /** For an in-bounds body without repeated cells, some grid cell is free
      if and only if the body is shorter than the grid. */
  lemma FreeCellExistsIff(body: seq<Cell>)
    requires AllInBounds(body) && Distinct(body)
    ensures (exists c :: InBounds(c) && c !in body) <==> |body| < GridWidth * GridHeight
  {
    var occupied := set i | 0 <= i < |body| :: body[i];
    var grid := GridCells(GridHeight);
    GridCellsCount(GridHeight);
    SetOfSeqSize(body);
    assert occupied <= grid by {
      forall c | c in occupied ensures c in grid {
        GridCellsAreInBounds(c);
      }
    }
    if |body| < GridWidth * GridHeight {
      if forall c :: InBounds(c) ==> c in body {
        assert grid <= occupied by {
          forall c | c in grid ensures c in occupied {
            GridCellsAreInBounds(c);
            var i :| 0 <= i < |body| && body[i] == c;
          }
        }
        SubsetSize(grid, occupied);
        assert false;
      }
    } else {
      if c :| InBounds(c) && c !in body {
        GridCellsAreInBounds(c);
        assert c !in occupied;
        SubsetSize(occupied + {c}, grid);
        assert false;
      }
    }
  }
}
